=== FILE: README.md ===
# Histogram binning and counting, modelled in Dafny

This project models the core of a small Go histogram library: how it cuts a
value range into buckets, how it finds the bucket of a value, and how it counts
a sequence of values into buckets. Sample values are Dafny `real`s and counts
are unbounded `int`s.

- `Buckets` (`buckets.dfy`) holds the `Bucket` record: a count, an inclusive
  `min` and an exclusive `max`. It also says when bucket `i` holds a value:
  `[min, max)`, except that the last bucket also holds its upper edge. It
  defines the well-formed shape of a bucket list: every bucket non-empty and
  each one ending where the next begins.
- `Maths` (`maths.dfy`) is `Linspace`, which builds `nb` equal-width, empty
  buckets from `start` to `stop`. It fails with `BadBinCount` when `nb < 1`.
  It fails with `BadRange` when `start >= stop`. The bin count is checked
  first. `IMin` and `IMax` are also here.
- `Search` (`search.dfy`) is the lower-bound binary search of Go's
  `slices.BinarySearchFunc`. It returns the insertion position and whether the
  element there compares equal. The halving loop is the tail-recursive `Bisect`,
  one call per iteration. Its preconditions are the loop invariant.
- `Spans` (`spans.dfy`) has the two span strategies of bucket.go. The fixed
  span ignores the data. The exact span runs from the smallest to the largest
  input. Both return what `Linspace` returns.
- `Locating` (`locating.dfy`) has Go's three-way comparator and
  `DefaultBucketer`, the locator built from it and the binary search. The
  comparator recognises the last bucket by record equality, as the Go code
  does. `WellFormedDistinct` shows that for well-formed buckets this is the
  same as "is at index n-1".
- `Histograms` (`histograms.dfy`) is the aggregator `Hist`, the linear scale
  and `Scale`. The locator is a function-valued parameter, so any locator that
  keeps the Bucketer contract can be used. The contract is "the result is an
  index into the list, or negative".

Go's `Hist` increments the caller's bucket slice in place and returns it inside
the `Histogram`. Here, the updated list is the `buckets` field of the returned
`Histogram`. The caller's original list is the `buckets` argument. `Tally` and
`Trace` are reference definitions of the counting loop: `Tally` gives the
buckets after each value and `Trace` gives the index the locator returned for
each value. Each lookup sees the counts left by the earlier values, as in Go.

With two or more buckets, the histogram's `min` is the running minimum the code
keeps. That minimum starts at 0 and is updated only with counts just after an
increment. For non-negative starting counts every such count is at least 1, so
the minimum stays 0. It is not "the smallest bucket" that the doc comment at
histogram.go:5 describes. A negative starting count can pull it below 0. The
model follows the code.

## Model

| member | source | states |
|---|---|---|
| Buckets.WellFormedAscending | bucket.go:35-37 | Non-empty, contiguous buckets are strictly ascending: every earlier bucket ends no later than any later one begins. This is the sortedness the locator's callers must provide. |
| Buckets.WellFormedDistinct | bucket.go:45 | In a well-formed list no two buckets are equal records, so the comparator's test "equal to the last bucket" picks out only index n-1. |
| Maths.Linspace | math.go:8-22 | `nb < 1` fails with the bin-count error, checked before the range. Otherwise `start >= stop` fails with the range error, including equal bounds. Success happens exactly when `nb >= 1` and `start < stop`. It then gives `nb` empty buckets, contiguous and non-empty, all of width `(stop-start)/nb`, with the first `min` at `start` and the last `max` at `stop`. |
| Maths.GridUnique | math.go:15-20 | Those success facts fix the list: any well-formed list of empty buckets that starts at `start` with every width `scale` is exactly the grid, with bucket `i` spanning `[start + i*scale, start + (i+1)*scale)`. |
| Maths.IMin | math.go:24-29 | Returns one of its two arguments, and it is no larger than either. |
| Maths.IMax | math.go:31-36 | Returns one of its two arguments, and it is no smaller than either. |
| Search.Bisect | bucket.go:42 | The search, run from any state `[i, j)` that satisfies the loop invariant, ends at a position in `[i, j]` that satisfies it with `i == j`: everything left of the result compares below the target, and the element at the result (if any) compares at or above it. |
| Search.BinarySearchFunc | bucket.go:42 | The position is in `[0, n]`. The element before it compares below the target, the element at it compares at or above, and `found` holds exactly when the element at the position compares equal. |
| Search.LowerBound | bucket.go:42 | For a monotone comparator the position is the first element comparing at or above the target: all before it compare below, all from it on compare at or above. |
| Spans.BSArbitrarySpan | bucket.go:19-23 | Passes on both `Linspace` errors unchanged. On success it gives `nbins` empty, well-formed buckets from `start` to `stop`, each `(stop-start)/nbins` wide. By `Maths.GridUnique` this is exactly the `Linspace` grid. |
| Spans.ArbitrarySpanIgnoresData | bucket.go:19-23 | The fixed span gives the same result, errors included, for any two data sequences. |
| Spans.SeqMin | bucket.go:29 | The result is an element of the non-empty input and no larger than any element. |
| Spans.SeqMax | bucket.go:30 | The result is an element of the non-empty input and no smaller than any element. |
| Spans.BSExactSpan | bucket.go:25-33 | Fails exactly when `nb < 1` or all inputs are equal. The bin-count error comes first. Equal inputs give the range error with both bounds equal to that value. On success it gives `nb` empty, well-formed buckets whose first `min` is the smallest input and whose last `max` is the largest, each `(max-min)/nb` wide. By `Maths.GridUnique` this is exactly the `Linspace` grid over those bounds. |
| Locating.Compare | bucket.go:42-56 | Returns 0 exactly when the bucket holds the value, or when it equals the last bucket and the value is its `max`. Otherwise it returns -1 for a value at or above `max` and 1 for a value below `min`. The `max` test comes first, so a non-zero answer for a value at or above `max` is -1 even for an inverted bucket. The panic branch is unreachable. |
| Locating.DefaultBucketer | bucket.go:40-61 | The result is in `[-1, n-1]` and is -1 for an empty list. Any non-negative result names a bucket holding the value by the comparator's rule. This holds even for unsorted lists. |
| Locating.CompareMonotone | bucket.go:44-53 | Over well-formed buckets the comparator, once at or above the value, stays there. This is what makes binary search valid for it. |
| Locating.DefaultBucketerLocates | bucket.go:41-61 | For well-formed buckets the locator returns `i` exactly when bucket `i` holds the value, with the last bucket closed on the right. It returns -1 exactly when the list is empty or the value is below the first `min` or above the last `max`. |
| Locating.DefaultBucketerBoundsOnly | bucket.go:45 | For well-formed buckets the locator's answer depends only on the bucket bounds, never on the counts. |
| Locating.ExactSpanLocatesAll | bucket.go:25-33 | Every input value lies in some exact-span bucket: the default locator returns a non-negative index for each. |
| Histograms.DefaultIsBucketer | bucket.go:35-38 | The default locator keeps the Bucketer contract: its result is always below the list length. |
| Histograms.Place | histogram.go:53-58 | Placing one value changes no bounds. It adds one to the count of the bucket it names and leaves every other count alone. An index naming no bucket, such as a negative one, changes nothing. |
| Histograms.Tally | histogram.go:53-58 | Counting a sequence of values never changes the number of buckets or their bounds. |
| Histograms.Trace | histogram.go:54 | There is exactly one locator answer per input value. |
| Histograms.Hist | histogram.go:37-69 | Never fails. No buckets gives the all-zero histogram. One bucket gives `min = max = count = len(input)`: that bucket's count is overwritten with `len(input)`, its bounds are unchanged, and the locator is never consulted. With two or more buckets: `count = len(input)`, and bounds and length are unchanged. The filled buckets are exactly `Tally` of the input, so by `TallyCounts` each bucket's count is its starting count plus the number of lookups that returned its index. `min <= 0 <= max`, and `min = 0` for non-negative starting counts. For zero starting counts, `max` is the largest bucket count (or 0) and every count lies between `min` and `max`. |
| Histograms.TallyCounts | histogram.go:53-58 | Each bucket's final count is its starting count plus the number of locator answers naming it, for any locator. |
| Histograms.TallySum | histogram.go:52-61 | The final total count plus the number of lookups that named no bucket equals the starting total plus the number of inputs. So for zero starting counts, bucket counts plus rejected values add up to `len(input)`, the histogram's `count`. |
| Histograms.TraceBoundsOnly | histogram.go:54 | A locator that looks only at bounds gives, during counting, the same answer for each value as on the caller's buckets. |
| Histograms.DefaultBoundsOnly | bucket.go:41-61 | On well-formed buckets the default locator gives the same answer on any list with the same bounds. |
| Histograms.DefaultTrace | histogram.go:54 | During counting over well-formed buckets, the default locator's answer for each value is its answer on the caller's buckets. |
| Histograms.AllPlaced | histogram.go:53-58 | If the locator places every value in empty buckets, nothing is rejected and the counts add up to the number of inputs. |
| Histograms.ExactSpanCountsAll | bucket.go:25-33 | Exact-span buckets counted with the default locator reject no value, and their counts add up to the number of inputs. |
| Histograms.Linear | histogram.go:26-35 | Gives 1 when `min == max`. Otherwise `value == min` gives 0 and `value == max` gives `width`. When `min < max`, `min <= value <= max` and `width >= 0`, the result lies in `[0, width]`. For `min != max` the result is proportional: `r * (max - min) == (value - min) * width`, so `(0, 10, 5)` at width 5 gives 2.5. |
| Histograms.ScaleLinear | histogram.go:17-21 | `Scale` applies the scale function to the histogram's `min`, `max` and the bucket's count. Scaling any bucket of a histogram whose counts lie between its `min` and `max` gives 1 for a flat histogram, otherwise a value in `[0, width]`. |

## Left out

- Text rendering (`Fprint`, `Fprintf`) is not modelled. It is output formatting that the core does not depend on.
- IEEE-754 rounding: values are exact reals. So the concrete bucket counts the Go tests expect are not stated. They depend on float rounding, for example 0.3 landing in `[0.2, 0.3)`. "The last `max` equals `stop`" and "exact-span buckets place every input" hold over reals only.
- NaN inputs are not modelled. Over reals the comparator's fourth branch, a panic in Go, is proved unreachable.
- Spans.BSExactSpan: requires non-empty input. Go's `slices.Min` and `slices.Max` panic on an empty slice, and panics are not modelled.
- Locating.DefaultBucketer: returns -1 for an empty list before building the comparator. The comparator captures the last bucket, which does not exist then. Go's search makes no comparison on an empty slice, so the result is the same.
- Histograms.Hist: counts are unbounded integers, and Go's `int` wrap-around is not modelled. It happens when one increment pushes a caller-supplied count past the platform `int` maximum, because `Count` is a field the caller sets. For example, a starting count of the largest `int` wraps to the smallest on `Count++`, and then `min` becomes that negative value. The model instead proves `min == 0` for it, since the starting counts are non-negative.
- Histograms.Hist: returns the updated bucket list inside the result instead of aliasing the caller's slice. Go's `*Histogram` pointer identity is not modelled.
- Histograms.Hist: Go's error result is always nil. It is modelled as a `Result` that is always `Success`.
- Histograms.Linear: the `float64` conversions of the integer arguments are exact here. The `int` subtractions `value - min` and `max - min` cannot wrap around here, while in Go they can: for example, with `min` the smallest and `max` the largest `int`.
- Histograms.Scale: requires an index into the bucket list. Go panics on an out-of-range `h.Buckets[idx]`, and panics are not modelled.
- `almostEqual` (math.go:38-40) is a float comparison helper for tests and is not modelled.

=== FILE: buckets.dfy ===
/**
 The Bucket record of bucket.go and the shape a bucket list must have for the
 default locator to be right: every bucket non-empty, each ending exactly where
 the next begins. Sample values are modelled as `real`.
 */
module Buckets {

  /** A partition of values: how many values it holds, its inclusive low bound
      and its exclusive high bound. */
  datatype Bucket = Bucket(count: int, min: real, max: real)

  /** Bucket `i` of `bs` holds `v`: `[min, max)`, except that the last bucket
      also holds its own upper edge. */
  predicate Holds(bs: seq<Bucket>, i: int, v: real)
  {
    && 0 <= i < |bs|
    && ((bs[i].min <= v < bs[i].max) || (i == |bs| - 1 && v == bs[i].max))
  }

  /** Every bucket spans a non-empty interval and consecutive buckets touch. */
  predicate WellFormed(bs: seq<Bucket>)
  {
    && (forall i :: 0 <= i < |bs| ==> bs[i].min < bs[i].max)
    && (forall i :: 0 <= i < |bs| - 1 ==> bs[i].max == bs[i + 1].min)
  }

  /** Every earlier bucket ends no later than any later bucket begins. */
  predicate Ascending(bs: seq<Bucket>)
  {
    forall i, j :: 0 <= i < j < |bs| ==> bs[i].max <= bs[j].min
  }

  /** `s` and `t` are the same intervals, whatever their counts. */
  predicate SameBounds(s: seq<Bucket>, t: seq<Bucket>)
  {
    && |s| == |t|
    && forall i :: 0 <= i < |s| ==> s[i].min == t[i].min && s[i].max == t[i].max
  }

  predicate AllZero(bs: seq<Bucket>)
  {
    forall i :: 0 <= i < |bs| ==> bs[i].count == 0
  }

  predicate NonNegative(bs: seq<Bucket>)
  {
    forall i :: 0 <= i < |bs| ==> bs[i].count >= 0
  }

  /** Sum of the counts of all buckets. */
  function SumCounts(bs: seq<Bucket>): int
  {
    if |bs| == 0 then 0 else SumCounts(bs[..|bs| - 1]) + bs[|bs| - 1].count
  }

  /** `m` is the largest count of `bs`, or 0 when no count is positive. */
  predicate IsMaxCount(m: int, bs: seq<Bucket>)
  {
    && (forall i :: 0 <= i < |bs| ==> bs[i].count <= m)
    && (m == 0 || exists i :: 0 <= i < |bs| && bs[i].count == m)
  }

  lemma {:induction false} Chain(bs: seq<Bucket>, i: int, j: int)
    requires WellFormed(bs)
    requires 0 <= i < j < |bs|
    ensures bs[i].max <= bs[j].min
    decreases j - i
  {
    if j > i + 1 {
      Chain(bs, i, j - 1);
      assert bs[j - 1].max == bs[j].min;
    }
  }

  /** Contiguous, non-empty buckets are strictly ascending: the sortedness the
      locator's callers must guarantee. */
  lemma WellFormedAscending(bs: seq<Bucket>)
    requires WellFormed(bs)
    ensures Ascending(bs)
  {
    forall i, j | 0 <= i < j < |bs|
      ensures bs[i].max <= bs[j].min
    {
      Chain(bs, i, j);
    }
  }

  /** In a well-formed list no two buckets are equal as records, so
      "equal to the last bucket" means "is the last bucket". */
  lemma WellFormedDistinct(bs: seq<Bucket>)
    requires WellFormed(bs)
    ensures forall i, j :: 0 <= i < |bs| && 0 <= j < |bs| && bs[i] == bs[j] ==> i == j
  {
    WellFormedAscending(bs);
    forall i, j | 0 <= i < |bs| && 0 <= j < |bs| && i != j
      ensures bs[i] != bs[j]
    {
      if i < j {
        assert bs[i].min < bs[i].max <= bs[j].min;
      } else {
        assert bs[j].min < bs[j].max <= bs[i].min;
      }
    }
  }

  /** Adding one to the count of bucket `i` adds one to the total. */
  lemma {:induction false} SumCountsIncrement(bs: seq<Bucket>, i: int)
    requires 0 <= i < |bs|
    ensures SumCounts(bs[i := bs[i].(count := bs[i].count + 1)]) == SumCounts(bs) + 1
    decreases |bs|
  {
    var bs' := bs[i := bs[i].(count := bs[i].count + 1)];
    var n := |bs|;
    if i == n - 1 {
      assert bs'[..n - 1] == bs[..n - 1];
    } else {
      var front := bs[..n - 1];
      SumCountsIncrement(front, i);
      assert bs'[..n - 1] == front[i := front[i].(count := front[i].count + 1)];
    }
  }

  /** The total of all-zero buckets is zero. */
  lemma {:induction false} SumCountsZero(bs: seq<Bucket>)
    requires AllZero(bs)
    ensures SumCounts(bs) == 0
    decreases |bs|
  {
    if |bs| > 0 {
      SumCountsZero(bs[..|bs| - 1]);
    }
  }
}

=== FILE: histograms.dfy ===
/**
 histogram.go: aggregation of values into buckets through a pluggable
 locator, and the linear scale used to draw the result.

 The Go aggregator updates the caller's bucket slice in place and returns it
 inside the Histogram; here the updated list is the `buckets` field of the
 returned Histogram and the caller's list is the `buckets` argument.
 */
module Histograms {
  import opened Buckets
  import opened Maths
  import opened Spans
  import opened Locating

  /** The result of aggregation: the smallest and largest per-bucket count
      seen, the number of values aggregated, and the filled buckets. */
  datatype Histogram = Histogram(min: int, max: int, count: int, buckets: seq<Bucket>)

  /** The Bucketer contract: the result is an index into the list it was
      given, or negative for "no bucket". */
  ghost predicate IsBucketer(bf: (real, seq<Bucket>) -> int)
  {
    forall v, s :: bf(v, s) < |s|
  }

  lemma BucketerBound(bf: (real, seq<Bucket>) -> int, v: real, s: seq<Bucket>)
    requires IsBucketer(bf)
    ensures bf(v, s) < |s|
  {
  }

  lemma DefaultIsBucketer()
    ensures IsBucketer(DefaultBucketer)
  {
  }

  /** One value placed by the locator: bucket `i` gains one; an index that
      names no bucket changes nothing. */
  function Place(bs: seq<Bucket>, i: int): (r: seq<Bucket>)
    ensures SameBounds(r, bs)
    ensures forall k :: 0 <= k < |bs| ==> r[k].count == bs[k].count + (if k == i then 1 else 0)
  {
    if 0 <= i < |bs| then bs[i := bs[i].(count := bs[i].count + 1)] else bs
  }

  /** The buckets after placing every value of `input` in order, each lookup
      seeing the counts left by the values before it. */
  function Tally(input: seq<real>, bs: seq<Bucket>, bf: (real, seq<Bucket>) -> int): (r: seq<Bucket>)
    ensures SameBounds(r, bs)
    decreases |input|
  {
    if |input| == 0 then bs
    else
      var prev := Tally(input[..|input| - 1], bs, bf);
      Place(prev, bf(input[|input| - 1], prev))
  }

  /** The index the locator returned for each value during `Tally`. */
  function Trace(input: seq<real>, bs: seq<Bucket>, bf: (real, seq<Bucket>) -> int): (t: seq<int>)
    ensures |t| == |input|
    decreases |input|
  {
    if |input| == 0 then []
    else
      var front := input[..|input| - 1];
      Trace(front, bs, bf) + [bf(input[|input| - 1], Tally(front, bs, bf))]
  }

  /** How many of the locator's answers name none of `n` buckets. */
  function Rejected(t: seq<int>, n: int): nat
  {
    if |t| == 0 then 0
    else Rejected(t[..|t| - 1], n) + (if 0 <= t[|t| - 1] < n then 0 else 1)
  }

  /** Every bucket's count lies between the histogram's min and max. */
  predicate CountsWithin(h: Histogram)
  {
    forall k :: 0 <= k < |h.buckets| ==> h.min <= h.buckets[k].count <= h.max
  }

  /** Aggregates `input` over `buckets` using the locator `bf`. Never fails. */
  method Hist(input: seq<real>, buckets: seq<Bucket>, bf: (real, seq<Bucket>) -> int) returns (r: Result<Histogram>)
    requires IsBucketer(bf)
    ensures r.Success?
    ensures |buckets| == 0 ==> r.value == Histogram(0, 0, 0, [])
    ensures |buckets| == 1 ==>
              && r.value.min == r.value.max == r.value.count == |input|
              && SameBounds(r.value.buckets, buckets)
              && r.value.buckets[0].count == |input|
    ensures |buckets| >= 2 ==>
              && r.value.count == |input|
              && SameBounds(r.value.buckets, buckets)
              && r.value.min <= 0 <= r.value.max
              && (NonNegative(buckets) ==> r.value.min == 0)
              && (AllZero(buckets) ==> IsMaxCount(r.value.max, r.value.buckets))
    ensures |buckets| >= 2 ==> r.value.buckets == Tally(input, buckets, bf)
    ensures AllZero(buckets) ==> CountsWithin(r.value)
  {
    if |buckets| == 0 {
      return Success(Histogram(0, 0, 0, []));
    }
    if |buckets| == 1 {
      var bs := buckets[0 := buckets[0].(count := |input|)];
      return Success(Histogram(|input|, |input|, |input|, bs));
    }
    var bs := buckets;
    var minC, maxC := 0, 0;
    var i := 0;
    while i < |input|
      invariant 0 <= i <= |input|
      invariant bs == Tally(input[..i], buckets, bf)
      invariant forall k :: 0 <= k < |bs| ==> bs[k].count >= buckets[k].count
      invariant minC <= 0 <= maxC
      invariant NonNegative(buckets) ==> minC == 0
      invariant AllZero(buckets) ==> IsMaxCount(maxC, bs)
    {
      assert input[..i + 1][..i] == input[..i];
      var bi := bf(input[i], bs);
      BucketerBound(bf, input[i], bs);
      if bi >= 0 {
        bs := bs[bi := bs[bi].(count := bs[bi].count + 1)];
        minC := IMin(minC, bs[bi].count);
        maxC := IMax(maxC, bs[bi].count);
      }
      i := i + 1;
    }
    assert input[..i] == input;
    return Success(Histogram(minC, maxC, |input|, bs));
  }

  /** Each bucket ends with its starting count plus the number of lookups
      that returned its index. */
  lemma {:induction false} TallyCounts(input: seq<real>, bs: seq<Bucket>, bf: (real, seq<Bucket>) -> int)
    ensures forall k :: 0 <= k < |bs| ==>
              Tally(input, bs, bf)[k].count == bs[k].count + multiset(Trace(input, bs, bf))[k]
    decreases |input|
  {
    if |input| > 0 {
      var front := input[..|input| - 1];
      TallyCounts(front, bs, bf);
    }
  }

  /** Counts gained plus lookups that named no bucket account for every input. */
  lemma {:induction false} TallySum(input: seq<real>, bs: seq<Bucket>, bf: (real, seq<Bucket>) -> int)
    ensures SumCounts(Tally(input, bs, bf)) + Rejected(Trace(input, bs, bf), |bs|) == SumCounts(bs) + |input|
    ensures AllZero(bs) ==> SumCounts(Tally(input, bs, bf)) + Rejected(Trace(input, bs, bf), |bs|) == |input|
    decreases |input|
  {
    if AllZero(bs) {
      SumCountsZero(bs);
    }
    if |input| > 0 {
      var front := input[..|input| - 1];
      TallySum(front, bs, bf);
      var prev := Tally(front, bs, bf);
      var x := bf(input[|input| - 1], prev);
      var t := Trace(front, bs, bf);
      assert (t + [x])[..|t|] == t;
      if 0 <= x < |bs| {
        SumCountsIncrement(prev, x);
      }
    }
  }

  /** The locator's answer for any value is the same on every list with the
      bounds of `bs`, whatever the counts. */
  ghost predicate BoundsOnly(bf: (real, seq<Bucket>) -> int, bs: seq<Bucket>)
  {
    forall v, t :: SameBounds(t, bs) ==> bf(v, t) == bf(v, bs)
  }

  /** A locator that looks only at bucket bounds gives the same answers
      during aggregation as on the caller's buckets. */
  lemma {:induction false} TraceBoundsOnly(input: seq<real>, bs: seq<Bucket>, bf: (real, seq<Bucket>) -> int)
    requires BoundsOnly(bf, bs)
    ensures forall j :: 0 <= j < |input| ==> Trace(input, bs, bf)[j] == bf(input[j], bs)
    decreases |input|
  {
    if |input| > 0 {
      var front := input[..|input| - 1];
      TraceBoundsOnly(front, bs, bf);
      var prev := Tally(front, bs, bf);
      var v := input[|input| - 1];
      assert bf(v, prev) == bf(v, bs);
      forall j | 0 <= j < |input|
        ensures Trace(input, bs, bf)[j] == bf(input[j], bs)
      {
        if j < |front| {
          assert front[j] == input[j];
        }
      }
    }
  }

  lemma DefaultBoundsOnly(bs: seq<Bucket>)
    requires WellFormed(bs)
    ensures BoundsOnly(DefaultBucketer, bs)
  {
    forall v, t | SameBounds(t, bs)
      ensures DefaultBucketer(v, t) == DefaultBucketer(v, bs)
    {
      DefaultBucketerBoundsOnly(v, bs, t);
    }
  }

  /** With well-formed buckets the default locator's answers during
      aggregation are its answers on the caller's buckets. */
  lemma DefaultTrace(input: seq<real>, bs: seq<Bucket>)
    requires WellFormed(bs)
    ensures forall j :: 0 <= j < |input| ==> Trace(input, bs, DefaultBucketer)[j] == DefaultBucketer(input[j], bs)
  {
    DefaultBoundsOnly(bs);
    TraceBoundsOnly(input, bs, DefaultBucketer);
  }

  /** When the locator places every value, nothing is rejected and the
      counts of empty buckets add up to the number of inputs. */
  lemma AllPlaced(input: seq<real>, bs: seq<Bucket>, bf: (real, seq<Bucket>) -> int)
    requires BoundsOnly(bf, bs) && AllZero(bs)
    requires forall j :: 0 <= j < |input| ==> 0 <= bf(input[j], bs) < |bs|
    ensures Rejected(Trace(input, bs, bf), |bs|) == 0
    ensures SumCounts(Tally(input, bs, bf)) == |input|
  {
    TraceBoundsOnly(input, bs, bf);
    NoneRejected(Trace(input, bs, bf), |bs|);
    TallySum(input, bs, bf);
    SumCountsZero(bs);
  }

  /** With exact-span buckets and the default locator no value is rejected,
      so the bucket counts add up to the number of inputs. */
  lemma ExactSpanCountsAll(nb: int, input: seq<real>, bs: seq<Bucket>)
    requires |input| > 0 && BSExactSpan(nb, input) == Success(bs)
    ensures Rejected(Trace(input, bs, DefaultBucketer), |bs|) == 0
    ensures SumCounts(Tally(input, bs, DefaultBucketer)) == |input|
  {
    ExactSpanLocatesAll(nb, input);
    DefaultBoundsOnly(bs);
    AllPlaced(input, bs, DefaultBucketer);
  }

  lemma {:induction false} NoneRejected(t: seq<int>, n: int)
    requires forall j :: 0 <= j < |t| ==> 0 <= t[j] < n
    ensures Rejected(t, n) == 0
    decreases |t|
  {
    if |t| > 0 {
      NoneRejected(t[..|t| - 1], n);
    }
  }

  /** The linear scale: `value`'s position between `min` and `max`, stretched
      to `width`; 1 when `min == max`. */
  function Linear(width: int, min: int, max: int, value: int): (r: real)
    ensures min == max ==> r == 1.0
    ensures min != max && value == min ==> r == 0.0
    ensures min != max && value == max ==> r == width as real
    ensures min < max && min <= value <= max && 0 <= width ==> 0.0 <= r <= width as real
    ensures min != max ==> r * (max - min) as real == (value - min) as real * width as real
  {
    if min == max then 1.0
    else
      Proportion((value - min) as real, (max - min) as real, width as real);
      (value - min) as real / (max - min) as real * width as real
  }

  lemma Proportion(a: real, d: real, w: real)
    requires d != 0.0
    ensures a / d * w * d == a * w
  {
    assert a / d * d == a;
  }

  /** `Linear(width)` as a scale function value. */
  function LinearScale(width: int): (int, int, int) -> real
  {
    (min: int, max: int, value: int) => Linear(width, min, max, value)
  }

  /** The scaled size of bucket `idx`. */
  function Scale(h: Histogram, s: (int, int, int) -> real, idx: int): real
    requires 0 <= idx < |h.buckets|
  {
    s(h.min, h.max, h.buckets[idx].count)
  }

  /** Scaling a bucket of a histogram whose counts lie within its min and max
      linearly gives a bar of at most `width`, or 1 for a flat histogram. */
  lemma ScaleLinear(h: Histogram, width: int, idx: int)
    requires 0 <= idx < |h.buckets| && CountsWithin(h) && 0 <= width
    ensures h.min == h.max ==> Scale(h, LinearScale(width), idx) == 1.0
    ensures h.min != h.max ==> 0.0 <= Scale(h, LinearScale(width), idx) <= width as real
  {
  }
}

=== FILE: locating.dfy ===
/**
 bucket.go: the default locator, which finds a value's bucket by binary search
 with a three-way comparator.
 */
module Locating {
  import opened Buckets
  import opened Search
  import opened Spans

  /** Go's three-way comparator: 0 when the bucket holds `v` (the last bucket,
      recognised by record equality with `last`, also holds its upper edge),
      -1 when `v` lies above the bucket, 1 when below. */
  function Compare(b: Bucket, v: real, last: Bucket): (c: int)
    ensures c == 0 <==> (b.min <= v < b.max) || (b == last && v == b.max)
    ensures c < 0 ==> c == -1 && b.max <= v
    ensures c > 0 ==> c == 1 && v < b.min
    ensures c != 0 && b.max <= v ==> c == -1
  {
    if (b.min <= v && b.max > v) || (b == last && v == b.max) then 0
    else if b.max <= v then -1
    else if b.min > v then 1
    else assert false; 0
  }

  /** The comparator closure, capturing the last bucket of the list searched. */
  function Comparator(last: Bucket): (Bucket, real) -> int
  {
    (b: Bucket, x: real) => Compare(b, x, last)
  }

  /** The locator used by default: the index of the bucket holding `v`, or -1. */
  function DefaultBucketer(v: real, bs: seq<Bucket>): (r: int)
    ensures -1 <= r < |bs|
    ensures |bs| == 0 ==> r == -1
    ensures r >= 0 ==> (bs[r].min <= v < bs[r].max) || (bs[r] == bs[|bs| - 1] && v == bs[r].max)
  {
    if |bs| == 0 then -1
    else
      var (idx, found) := BinarySearchFunc(bs, v, Comparator(bs[|bs| - 1]));
      if !found then -1 else idx
  }

  /** Over well-formed buckets the comparator moves from "above" to "below"
      exactly once, so binary search is sound for it. */
  lemma CompareMonotone(v: real, bs: seq<Bucket>)
    requires WellFormed(bs) && |bs| > 0
    ensures Monotone(bs, v, Comparator(bs[|bs| - 1]))
  {
    var cmp := Comparator(bs[|bs| - 1]);
    WellFormedAscending(bs);
    WellFormedDistinct(bs);
    forall i, j | 0 <= i < j < |bs| && cmp(bs[i], v) >= 0
      ensures cmp(bs[j], v) >= 0
    {
      assert bs[i] != bs[|bs| - 1];
      assert v < bs[i].max <= bs[j].min;
    }
  }

  /** The default locator returns `i` exactly when bucket `i` holds `v`, and
      -1 exactly when `v` lies outside `[bs[0].min, bs[n-1].max]`. */
  lemma DefaultBucketerLocates(v: real, bs: seq<Bucket>)
    requires WellFormed(bs)
    ensures forall i :: 0 <= i < |bs| ==> (DefaultBucketer(v, bs) == i <==> Holds(bs, i, v))
    ensures DefaultBucketer(v, bs) == -1 <==> |bs| == 0 || v < bs[0].min || bs[|bs| - 1].max < v
  {
    if |bs| > 0 {
      var n := |bs|;
      var cmp := Comparator(bs[n - 1]);
      var (idx, found) := BinarySearchFunc(bs, v, cmp);
      WellFormedAscending(bs);
      WellFormedDistinct(bs);
      CompareMonotone(v, bs);
      LowerBound(bs, v, cmp);
      forall i | 0 <= i < n && Holds(bs, i, v)
        ensures DefaultBucketer(v, bs) == i
      {
        forall k | 0 <= k < i
          ensures cmp(bs[k], v) < 0
        {
          assert bs[k].max <= bs[i].min <= v;
        }
        assert idx == i;
      }
      if bs[0].min <= v <= bs[n - 1].max {
        if 0 < idx < n {
          assert cmp(bs[idx - 1], v) < 0;
          assert bs[idx - 1].max == bs[idx].min;
        }
        assert found;
      } else {
        forall i | 0 <= i < n
          ensures !Holds(bs, i, v)
        {
          if 0 < i {
            assert bs[0].min < bs[0].max <= bs[i].min;
          }
          if i < n - 1 {
            assert bs[i].max <= bs[n - 1].min < bs[n - 1].max;
          }
        }
      }
    }
  }

  /** The default locator looks only at bucket bounds, never at counts, so it
      answers the same while the aggregator fills the buckets. */
  lemma DefaultBucketerBoundsOnly(v: real, s: seq<Bucket>, t: seq<Bucket>)
    requires WellFormed(s) && SameBounds(s, t)
    ensures DefaultBucketer(v, s) == DefaultBucketer(v, t)
  {
    assert WellFormed(t);
    DefaultBucketerLocates(v, s);
    DefaultBucketerLocates(v, t);
    var r := DefaultBucketer(v, s);
    if r >= 0 {
      assert Holds(s, r, v) && Holds(t, r, v);
    } else if |s| > 0 {
      assert s[0].min == t[0].min && s[|s| - 1].max == t[|t| - 1].max;
    }
  }

  /** With exact-span buckets every input lies in some bucket: none is dropped. */
  lemma ExactSpanLocatesAll(nb: int, input: seq<real>)
    requires |input| > 0 && BSExactSpan(nb, input).Success?
    ensures forall j :: 0 <= j < |input| ==> DefaultBucketer(input[j], BSExactSpan(nb, input).value) >= 0
  {
    var bs := BSExactSpan(nb, input).value;
    forall j | 0 <= j < |input|
      ensures DefaultBucketer(input[j], bs) >= 0
    {
      assert input[j] in input;
      DefaultBucketerLocates(input[j], bs);
    }
  }
}

=== FILE: maths.dfy ===
/**
 Bucket generation and the integer helpers of math.go.
 */
module Maths {
  import opened Buckets

  /** The two ways bucket generation can fail. */
  datatype Error =
    | BadBinCount(nb: int)
    | BadRange(start: real, stop: real)

  datatype Result<T> = Success(value: T) | Failure(error: Error)

  /** `nb` equal-width, contiguous buckets covering `[start, stop]`, all empty.
      The bin count is checked before the range. */
  function Linspace(start: real, stop: real, nb: int): (r: Result<seq<Bucket>>)
    ensures nb < 1 ==> r == Failure(BadBinCount(nb))
    ensures 1 <= nb && stop <= start ==> r == Failure(BadRange(start, stop))
    ensures r.Success? <==> 1 <= nb && start < stop
    ensures r.Success? ==>
              && |r.value| == nb
              && WellFormed(r.value)
              && AllZero(r.value)
              && r.value[0].min == start
              && r.value[nb - 1].max == stop
              && (forall i :: 0 <= i < nb ==> r.value[i].max - r.value[i].min == (stop - start) / nb as real)
  {
    if nb < 1 then
      Failure(BadBinCount(nb))
    else if start >= stop then
      Failure(BadRange(start, stop))
    else
      var scale := (stop - start) / nb as real;
      GridShape(start, stop, nb);
      Success(Grid(start, scale, nb))
  }

  /** Bucket `i` spans `[start + i*scale, start + (i+1)*scale)`. */
  function Grid(start: real, scale: real, nb: nat): seq<Bucket>
  {
    seq(nb, i => Bucket(0, start + i as real * scale, start + (i + 1) as real * scale))
  }

  lemma GridShape(start: real, stop: real, nb: int)
    requires 1 <= nb && start < stop
    ensures var scale := (stop - start) / nb as real;
            var bs := Grid(start, scale, nb);
            && WellFormed(bs)
            && bs[nb - 1].max == stop
            && forall i :: 0 <= i < nb ==> bs[i].max - bs[i].min == scale
  {
    var scale := (stop - start) / nb as real;
    DivideBack(stop - start, nb as real);
    GridWidths(start, scale, nb);
  }

  lemma DivideBack(d: real, n: real)
    requires d > 0.0 && n > 0.0
    ensures d / n > 0.0
    ensures n * (d / n) == d
  {
  }

  lemma GridWidths(start: real, scale: real, nb: nat)
    requires scale > 0.0
    ensures var bs := Grid(start, scale, nb);
            && WellFormed(bs)
            && forall i :: 0 <= i < nb ==> bs[i].max - bs[i].min == scale
  {
    var bs := Grid(start, scale, nb);
    forall i | 0 <= i < nb
      ensures bs[i].max - bs[i].min == scale
    {
      Distribute(i as real, scale);
    }
  }

  lemma Distribute(a: real, s: real)
    ensures (a + 1.0) * s == a * s + s
  {
  }

  /** The shape facts `Linspace` promises fix the list completely: well-formed,
      empty buckets that start at `start` and are all `scale` wide are the grid,
      bucket `i` spanning `[start + i*scale, start + (i+1)*scale)`. */
  lemma GridUnique(bs: seq<Bucket>, start: real, scale: real)
    requires WellFormed(bs) && AllZero(bs)
    requires |bs| > 0 ==> bs[0].min == start
    requires forall i :: 0 <= i < |bs| ==> bs[i].max - bs[i].min == scale
    ensures bs == Grid(start, scale, |bs|)
  {
    forall k | 0 <= k < |bs|
      ensures bs[k] == Grid(start, scale, |bs|)[k]
    {
      GridBucket(bs, start, scale, k);
    }
  }

  lemma {:induction false} GridBucket(bs: seq<Bucket>, start: real, scale: real, k: nat)
    requires WellFormed(bs) && AllZero(bs)
    requires |bs| > 0 ==> bs[0].min == start
    requires forall i :: 0 <= i < |bs| ==> bs[i].max - bs[i].min == scale
    requires k < |bs|
    ensures bs[k] == Bucket(0, start + k as real * scale, start + (k + 1) as real * scale)
    decreases k
  {
    Distribute(k as real, scale);
    if k > 0 {
      GridBucket(bs, start, scale, k - 1);
      assert bs[k - 1].max == bs[k].min;
    }
  }

  /** The smaller of two integers. */
  function IMin(a: int, b: int): (r: int)
    ensures r == a || r == b
    ensures r <= a && r <= b
  {
    if a < b then a else b
  }

  /** The larger of two integers. */
  function IMax(a: int, b: int): (r: int)
    ensures r == a || r == b
    ensures r >= a && r >= b
  {
    if a > b then a else b
  }
}

=== FILE: search.dfy ===
/**
 The lower-bound binary search of Go's `slices.BinarySearchFunc`, on which
 the default bucket locator is built. The search loop is written as the
 tail-recursive `Bisect`, one call per iteration, so that the locator stays a
 function and can be handed to the aggregator as a value.
 */
module Search {

  /** `cmp` never turns from "at or after the target" back to "before it" along `x`. */
  ghost predicate Monotone<E, T>(x: seq<E>, target: T, cmp: (E, T) -> int)
  {
    forall i, j :: 0 <= i < j < |x| && cmp(x[i], target) >= 0 ==> cmp(x[j], target) >= 0
  }

  /** The search state `[i, j)` of one loop iteration: everything left of `i`
      compares below the target, the element at `j` (if any) at or above it. */
  function Bisect<E, T>(x: seq<E>, target: T, cmp: (E, T) -> int, i: int, j: int): (r: int)
    requires 0 <= i <= j <= |x|
    requires i == 0 || cmp(x[i - 1], target) < 0
    requires j == |x| || cmp(x[j], target) >= 0
    ensures i <= r <= j
    ensures r == 0 || cmp(x[r - 1], target) < 0
    ensures r == |x| || cmp(x[r], target) >= 0
    decreases j - i
  {
    if i < j then
      var h := (i + j) / 2;
      if cmp(x[h], target) < 0 then Bisect(x, target, cmp, h + 1, j)
      else Bisect(x, target, cmp, i, h)
    else
      i
  }

  /** The position at which `target` would be inserted, and whether the
      element there compares equal to it. */
  function BinarySearchFunc<E, T>(x: seq<E>, target: T, cmp: (E, T) -> int): (r: (int, bool))
    ensures 0 <= r.0 <= |x|
    ensures r.0 == 0 || cmp(x[r.0 - 1], target) < 0
    ensures r.0 == |x| || cmp(x[r.0], target) >= 0
    ensures r.1 <==> r.0 < |x| && cmp(x[r.0], target) == 0
  {
    var i := Bisect(x, target, cmp, 0, |x|);
    (i, i < |x| && cmp(x[i], target) == 0)
  }

  /** On a monotone comparator the search finds the first element that
      compares at or above the target. */
  lemma LowerBound<E, T>(x: seq<E>, target: T, cmp: (E, T) -> int)
    requires Monotone(x, target, cmp)
    ensures var i := BinarySearchFunc(x, target, cmp).0;
            && (forall k :: 0 <= k < i ==> cmp(x[k], target) < 0)
            && (forall k :: i <= k < |x| ==> cmp(x[k], target) >= 0)
  {
  }
}

=== FILE: spans.dfy ===
/**
 bucket.go: the two span strategies that produce bucket lists from data.
 */
module Spans {
  import opened Buckets
  import opened Maths

  /** Fixed span: `nbins` buckets over `[start, stop]`, whatever the data. */
  function BSArbitrarySpan(start: real, stop: real, nbins: int, input: seq<real>): (r: Result<seq<Bucket>>)
    ensures nbins < 1 ==> r == Failure(BadBinCount(nbins))
    ensures 1 <= nbins && stop <= start ==> r == Failure(BadRange(start, stop))
    ensures r.Success? <==> 1 <= nbins && start < stop
    ensures r.Success? ==>
              && |r.value| == nbins
              && WellFormed(r.value)
              && AllZero(r.value)
              && r.value[0].min == start
              && r.value[nbins - 1].max == stop
              && (forall i :: 0 <= i < nbins ==> r.value[i].max - r.value[i].min == (stop - start) / nbins as real)
  {
    Linspace(start, stop, nbins)
  }

  /** The data plays no part in a fixed span. */
  lemma ArbitrarySpanIgnoresData(start: real, stop: real, nbins: int, a: seq<real>, b: seq<real>)
    ensures BSArbitrarySpan(start, stop, nbins, a) == BSArbitrarySpan(start, stop, nbins, b)
  {
  }

  /** The smallest value of a non-empty sequence. */
  function SeqMin(s: seq<real>): (m: real)
    requires |s| > 0
    ensures m in s
    ensures forall x :: x in s ==> m <= x
  {
    if |s| == 1 then s[0]
    else
      var rest := SeqMin(s[1..]);
      assert forall x :: x in s ==> x == s[0] || x in s[1..];
      if s[0] <= rest then s[0] else rest
  }

  /** The largest value of a non-empty sequence. */
  function SeqMax(s: seq<real>): (m: real)
    requires |s| > 0
    ensures m in s
    ensures forall x :: x in s ==> x <= m
  {
    if |s| == 1 then s[0]
    else
      var rest := SeqMax(s[1..]);
      assert forall x :: x in s ==> x == s[0] || x in s[1..];
      if s[0] >= rest then s[0] else rest
  }

  predicate AllEqual(s: seq<real>)
  {
    forall i, j :: 0 <= i < |s| && 0 <= j < |s| ==> s[i] == s[j]
  }

  /** Exact span: `nb` buckets from the smallest to the largest input. Fails
      on a bad bin count, and when all inputs are equal. */
  function BSExactSpan(nb: int, input: seq<real>): (r: Result<seq<Bucket>>)
    requires |input| > 0
    ensures nb < 1 ==> r == Failure(BadBinCount(nb))
    ensures 1 <= nb && AllEqual(input) ==> r == Failure(BadRange(input[0], input[0]))
    ensures r.Failure? <==> nb < 1 || AllEqual(input)
    ensures r.Success? ==>
              && |r.value| == nb
              && WellFormed(r.value)
              && AllZero(r.value)
              && r.value[0].min == SeqMin(input)
              && r.value[nb - 1].max == SeqMax(input)
              && (forall i :: 0 <= i < nb ==>
                    r.value[i].max - r.value[i].min == (SeqMax(input) - SeqMin(input)) / nb as real)
  {
    var lo := SeqMin(input);
    var hi := SeqMax(input);
    assert AllEqual(input) <==> lo == hi by {
      if lo == hi {
        forall i | 0 <= i < |input|
          ensures input[i] == lo
        {
          assert input[i] in input;
        }
      }
    }
    assert AllEqual(input) ==> lo == input[0];
    Linspace(lo, hi, nb)
  }
}
